=== FILE: README.md ===
# JSON-RPC relay: request framing, body rewriting, response framing

This project models the core of a small TCP relay (`proxy/proxy.go`). The
relay sits between a wallet client and a remote JSON-RPC node. For each
client connection it does the following:

- It reads HTTP-like request frames off the byte stream. A `POST` line
  (re)starts a frame, `name: value` lines follow until an empty line, and
  then comes a body of exactly `content-length` bytes.
- It normalises each body: booleans among the positional parameters of
  `getrawtransaction` become `1` and `0`.
- It posts the body to the remote node over HTTPS, with the collected header
  fields.
- It checks the node's reply for a non-null `error` member and turns the
  status into 500 when one is present.
- It writes a response frame back to the client: the status line, the reply's
  header fields with lower-cased names and a recomputed `content-length`, an
  empty line, then the body.
- It keeps the connection for another frame only after a 200 response.

The model follows the program's structure:

- `wrappers.dfy`: the `Option` and `Result` values.
- `text.dfy`: the string helpers the relay relies on. These are white-space
  trimming, lower-casing, finding a separator, and decimal parsing and
  rendering, including the 64-bit range of `strconv.Atoi` and `%03d`.
- `json.dfy`: decoded JSON values, member lookup, and the text codec. The
  codec is a parameter. A property that needs the codec to read back what it
  writes assumes this only for the one value involved (`RoundTrips`).
- `request_body.dfy`: `processInputJsonRPC`. It has a specification function,
  the in-place rewrite loop over an `array`, and the method as the relay runs
  it.
- `response_body.dfy`: `processOutputJsonRPC`.
- `framing.dfy`: the header-block reader and the body reader, as functions of
  the stream and a cursor. It also holds the Host value, as written and as
  corrected.
- `response_frame.dfy`: status derivation, the status line, the
  `content-length` rewrite, and the field lines of the response frame.
- `session.dfy`: the connection loop.
  - The function `Run` gives the sequence of responses a connection produces.
  - The class `Session` holds the stream cursor, the header map that lives
    across cycles, and the bytes written back. Its methods read headers, read
    a body, write a response, run one cycle and serve the whole connection,
    each proved against those functions.

## Model

| member | source | states |
|---|---|---|
| Text.TrimSpace | proxy/proxy.go:52 | The trimmed string is no longer than the input, and neither of its ends is white space |
| Text.TrimLeftShape | proxy/proxy.go:52 | Left trimming keeps a suffix, removes only white space, and stops at the first byte that is not white space |
| Text.TrimRightShape | proxy/proxy.go:52 | Right trimming keeps a prefix, removes only white space, and stops at the last byte that is not white space |
| Text.TrimSpaceOf | proxy/proxy.go:52 | Trimming a string surrounded by any white space gives back exactly that string, provided its own ends are not white space |
| Text.TrimSpaceSplits | proxy/proxy.go:52 | Every string is its trimmed form with only white space before and after it |
| Text.TrimmedIsFixed | proxy/proxy.go:198 | A string with no white space at its ends is its own trimmed form |
| Text.TrimSpaceAbsorbs | proxy/proxy.go:52 | Adding white space around a string does not change its trimmed form |
| Text.TrimSpaceIdempotent | proxy/proxy.go:181 | Trimming twice is the same as trimming once |
| Text.TrimSpaceKeepsAbsent | proxy/proxy.go:181-186 | Trimming never introduces a byte, so a line without a colon still has none after trimming |
| Text.TrimSpaceKeepsNonSpace | proxy/proxy.go:181-186 | A byte that is not white space occurs in a string exactly when it occurs in its trimmed form |
| Text.ToLower | proxy/proxy.go:189 | Lower-casing keeps the length, maps every byte through ASCII lower-casing, and leaves no upper-case letter |
| Text.ToLowerKeepsLower | proxy/proxy.go:189 | Lower-casing a lower-case name leaves it unchanged |
| Text.ToLowerKeepsTrimmed | proxy/proxy.go:189 | Lower-casing a trimmed name keeps it trimmed |
| Text.IndexOf | proxy/proxy.go:185 | Gives none exactly when the separator is absent; otherwise the position of its first occurrence |
| Text.Digit | proxy/proxy.go:246 | A digit below ten is rendered as the decimal character with that value |
| Text.DigitsTrimmed | proxy/proxy.go:198 | A string of decimal digits has no white space at either end |
| Text.Atoi | proxy/proxy.go:198 | A parsed value lies in the signed 64-bit range, comes from an optional sign followed by at least one digit, and is negative only after a minus sign |
| Text.Itoa | proxy/proxy.go:249 | The decimal rendering is a non-empty string of digits |
| Text.ItoaNoLeadingZero | proxy/proxy.go:249 | The rendering starts with `0` exactly when the number is zero |
| Text.ItoaValue | proxy/proxy.go:249 | The digits rendered for a number have that number as their value |
| Text.AtoiItoa | proxy/proxy.go:198 | Parsing the decimal rendering of any length within 64 bits gives back that length |
| Text.Pad3Parses | proxy/proxy.go:246 | `%03d` of a three-digit code is three digits that parse back to the code |
| JsonValue.Lookup | proxy/proxy.go:58 | A member lookup is non-null only for a member present in an object, and then it is that member's value; a missing member reads as null |
| JsonValue.DecodeObject | proxy/proxy.go:53-55 | Decoding into a string-keyed map succeeds exactly when the text decodes to an object or to `null`, and then gives that value. Text that is not JSON, or any other JSON value, is a decode error |
| RequestBody.NormalizeRequest | proxy/proxy.go:58-74 | The rewrite of the decoded request, characterised case by case by `RequestBody.NormalizeRequestSpec` |
| RequestBody.InputOutcome | proxy/proxy.go:50-83 | The whole body transformation, characterised by `RequestBody.InputOutcomeSpec` and computed by `RequestBody.ProcessInput` |
| RequestBody.InputOutcomeSpec | proxy/proxy.go:50-83 | A decode error exactly when the trimmed body does not decode to an object. Invalid input exactly when a `getrawtransaction` request lacks an array `params`. Otherwise the forwarded body is the encoding of the normalised request |
| RequestBody.Coerce | proxy/proxy.go:66-73 | The rewritten parameter is never a boolean, and a non-boolean parameter is left as it is |
| RequestBody.CoerceParams | proxy/proxy.go:65-74 | The rewritten parameter list has the same length, with each element rewritten at its own index |
| RequestBody.NormalizeRequestSpec | proxy/proxy.go:58-74 | A request other than `getrawtransaction` is returned unchanged. For `getrawtransaction`, a missing or non-array `params` is an invalid-input error; otherwise the request keeps the same members, every member but `params` stays as it was, `params` keeps its length, and at each index `true` becomes 1, `false` becomes 0 and any other value stays |
| RequestBody.CoerceParamsIdempotent | proxy/proxy.go:65-74 | Rewriting already rewritten parameters changes nothing |
| RequestBody.NormalizedHasNoBooleans | proxy/proxy.go:58-74 | After normalisation a `getrawtransaction` request is still one, its `params` is an array, and no element of it is a boolean |
| RequestBody.NormalizeIdempotent | proxy/proxy.go:58-74 | Normalising a normalised request gives the same result |
| RequestBody.InputIgnoresSurroundingSpace | proxy/proxy.go:52 | White space around the body does not change what is forwarded or which error results |
| RequestBody.ForwardedContentUnchanged | proxy/proxy.go:53-82 | When the codec reads the decoded request back from its encoding, a request other than `getrawtransaction` is forwarded with exactly the content decoded from it |
| RequestBody.InputIdempotent | proxy/proxy.go:50-83 | When the codec reads the normalised request back from its encoding, putting the forwarded body through the normaliser again forwards the same body |
| RequestBody.CoerceInPlace | proxy/proxy.go:65-74 | The loop over the array leaves every element rewritten at its own index: booleans become numbers and everything else stays in place |
| RequestBody.RewriteParams | proxy/proxy.go:60-74 | The parameter slice after the in-place loop is the rewritten parameter list |
| RequestBody.ProcessInput | proxy/proxy.go:50-83 | The relay's normaliser, with its in-place rewrite loop, gives exactly the outcome of `RequestBody.InputOutcome`, whose cases `RequestBody.InputOutcomeSpec` states |
| RequestBody.ExampleGetRawTransaction | proxy/proxy.go:58-74 | `params` `["abc", true]` of `getrawtransaction` is forwarded as `["abc", 1]` |
| ResponseBody.OutputOutcome | proxy/proxy.go:85-119 | The reply is passed on exactly when it decodes to an object (or `null`), and otherwise is a decode error. When passed on, the body is the re-encoded reply, and the error flag is set exactly when the reply has a non-null `error` member |
| ResponseBody.OutputContentUnchanged | proxy/proxy.go:113-118 | When the codec reads the decoded reply back from its encoding, the body passed on decodes to exactly the reply received, `error` member included |
| Framing.LineEnd | proxy/proxy.go:160 | Gives none exactly when no line feed remains; otherwise the index just past the first line feed at or after the cursor |
| Framing.ParseField | proxy/proxy.go:185-189 | Malformed exactly when the line has no colon; otherwise the name is lower-case and trimmed and the value is trimmed |
| Framing.ParseFieldSplits | proxy/proxy.go:185-189 | A line with a colon is split at its first colon: the name is the text before it, trimmed and lower-cased, and the value the text after it, trimmed |
| Framing.IsPostLine | proxy/proxy.go:172 | The `POST` test on a line with its terminator. Its effect on the header loop is stated by `Framing.ScanStep` and `Framing.ScanIgnoresStaleFields` |
| Framing.Advance | proxy/proxy.go:172-189 | One line of the header loop. Its cases are stated by `Framing.ScanStep`, and the map shape it keeps by `Framing.AdvanceKeepsShape` |
| Framing.ScanHeaders | proxy/proxy.go:157-190 | The header loop over the stream, characterised by `Framing.ScanStep`, `Framing.ScannedHeaders` and `Framing.ScanIgnoresStaleFields` |
| Framing.DeclaredLength | proxy/proxy.go:194-198 | The trimmed `content-length` value parsed as a 64-bit integer. The body read built on it is stated by `Framing.BodyOutcome`, and its agreement with the writer by `ResponseFrame.ContentLengthReadsBack` |
| Framing.HostAsWritten | proxy/proxy.go:174 | The Host value as written: `%s:%s` followed by the address and the port. `Framing.HostAsWrittenDiffers` shows it is never `address:port` |
| Framing.SetFieldKeepsShape | proxy/proxy.go:189 | Storing a lower-case name never overwrites the `Host` entry |
| Framing.AdvanceKeepsShape | proxy/proxy.go:172-189 | Only a line after a `POST` line can end the header block, and every line keeps the header map's shape once a `POST` line has been seen |
| Framing.ScannedHeaders | proxy/proxy.go:157-190 | A completed header block ends just past a line feed further along the stream, with the `Host` entry and otherwise only lower-case trimmed names |
| Framing.ScanIgnoresStaleFields | proxy/proxy.go:172-180 | Before the first `POST` line, the header map left over from an earlier cycle has no influence |
| Framing.ScanStep | proxy/proxy.go:159-190 | One line of the header loop, case by case: end of stream fails, `POST` restarts from `Host` alone, lines before `POST` are skipped, a blank line finishes, a line without a colon fails, any other line sets its field. A line has a colon exactly when its trimmed form does, so the cases cover every line |
| Framing.BodyOutcome | proxy/proxy.go:194-221 | The body read fails exactly when `content-length` is missing or unparsable, negative, above the 4096-byte buffer, or beyond the rest of the stream. Otherwise it takes exactly that many bytes at the cursor |
| Framing.ExampleShortBody | proxy/proxy.go:204-209 | A declared length of 11 with 5 bytes left is not read |
| Framing.HostHeader | proxy/proxy.go:174 | The corrected Host value is the address, a colon, then the port |
| Framing.HostAsWrittenDiffers | proxy/proxy.go:174 | The Host value as written is never `address:port`, for any address and port |
| Framing.HostHeaderSplits | proxy/proxy.go:174 | The corrected Host value splits at its last colon back into the address and the port |
| ResponseFrame.DeriveStatus | proxy/proxy.go:237-245 | The status sent to the client, characterised by `ResponseFrame.StatusRule` |
| ResponseFrame.Continues | proxy/proxy.go:265-267 | The loop rule on the status sent, characterised by `ResponseFrame.StatusRule` |
| ResponseFrame.StatusLine | proxy/proxy.go:246 | The `%03d` status line, characterised by `ResponseFrame.StatusLineShape` |
| ResponseFrame.WithContentLength | proxy/proxy.go:249 | The reply header with the length field set, characterised by `ResponseFrame.WithContentLengthWellFormed` |
| ResponseFrame.HeaderLine | proxy/proxy.go:251 | Defined as the lower-cased name, `: `, the value and CRLF. See `ResponseFrame.HeaderLineName` for the lower-cased name at its start |
| ResponseFrame.HeaderLines | proxy/proxy.go:250-256 | The field lines in emission order, characterised by `ResponseFrame.EmitField` and `ResponseFrame.ContentLengthLine` |
| ResponseFrame.Frame | proxy/proxy.go:246-259 | The whole response frame, characterised by `ResponseFrame.FrameLayout` |
| ResponseFrame.StatusRule | proxy/proxy.go:237-245 | An upstream-reported error always yields 500 and ends the connection. Otherwise the upstream's status is passed on, and the loop continues exactly when it is 200 |
| ResponseFrame.StatusLineShape | proxy/proxy.go:246 | The status line is 17 bytes: `HTTP/1.1 `, three digits that parse back to the status, then ` OK` and CRLF |
| ResponseFrame.SetLengthWellFormed | proxy/proxy.go:249 | Setting the canonical length field keeps every field valued, and keeps it the only name that lower-cases to `content-length` |
| ResponseFrame.WithContentLengthWellFormed | proxy/proxy.go:249 | After the rewrite the header stays well formed, and its length field holds exactly the decimal body length |
| ResponseFrame.EmitField | proxy/proxy.go:250-256 | Emitting a field not yet emitted extends the ordering by that name, and the header block by that field's line |
| ResponseFrame.FrameLayout | proxy/proxy.go:246-259 | A frame opens with its status line and closes with an empty line followed by exactly the body |
| ResponseFrame.LowerContentLengthKey | proxy/proxy.go:249-251 | The canonical length key is emitted as `content-length` |
| ResponseFrame.HeaderLineName | proxy/proxy.go:251 | A field line starts with the lower-cased field name |
| ResponseFrame.ContentLengthLine | proxy/proxy.go:249-256 | In every emission order, every emitted name is lower-case, and there is exactly one `content-length` line, carrying the body length in decimal |
| ResponseFrame.ContentLengthReadsBack | proxy/proxy.go:198 | The declared-length parse applied to the value the writer sets gives exactly the body length. The reader still refuses a body above the 4096-byte buffer (`Framing.BodyOutcome`) |
| ProxySession.UpstreamUrl | proxy/proxy.go:150 | The URL is `https://` followed by `address:port` |
| ProxySession.CycleSpec | proxy/proxy.go:157-259 | Defined as one pass of the loop in source order: headers, body, rewrite, upstream call, classification, then a response whose status is `ResponseFrame.DeriveStatus` of the reply's and whose body is the re-encoded reply. See `ProxySession.CycleResponds` for what a responding cycle consumed and sent, and `ProxySession.RunStep` for how it chains |
| ProxySession.CycleResponds | proxy/proxy.go:157-259 | A cycle that responds has consumed a frame further along the stream and sent a header map holding the `Host` entry and a declared length. Its response header is well formed, with the recomputed length |
| ProxySession.AsWrittenHostSent | proxy/proxy.go:174 | With the Host value as written, every cycle that responds has sent the upstream a `Host` entry that is not `address:port` |
| ProxySession.Run | proxy/proxy.go:157-267 | The responses of a connection, characterised by `ProxySession.RunStep` and `ProxySession.RunChained` |
| ProxySession.RunStep | proxy/proxy.go:157-267 | A failed cycle ends the connection with no response; a non-200 response is the last; a 200 response is followed by the responses from the next cycle |
| ProxySession.RunEnds | proxy/proxy.go:265-267 | A cycle that fails or answers other than 200 adds at most its own response |
| ProxySession.RunGoesOn | proxy/proxy.go:265-267 | A cycle answered with 200 adds its response and hands the rest of the stream to the next cycle |
| ProxySession.RunChained | proxy/proxy.go:157-267 | In the responses of a connection, every response but the last has status 200, and each consumed a frame strictly after the previous one within the stream |
| ProxySession.AppendFields | proxy/proxy.go:250-256 | The field loop emits each field exactly once, in the order the map yields, as its header line |
| ProxySession.WrittenAppend | proxy/proxy.go:257-260 | Writing one more response frame extends the record of written frames |
| ProxySession.Session.constructor | proxy/proxy.go:147-154 | A new connection starts at the beginning of the stream with an empty header map and nothing written, using the given Host value and the `https` URL |
| ProxySession.Session.ReadHeaders | proxy/proxy.go:157-190 | The header loop succeeds exactly when the header-block specification does. On success the cursor is just past the empty line, the header map is the one read, and nothing is written |
| ProxySession.Session.ReadBody | proxy/proxy.go:194-221 | The body read succeeds exactly when the body specification does. On success it yields those bytes and moves the cursor past them. On failure the cursor stays. The headers are never touched |
| ProxySession.Session.WriteResponse | proxy/proxy.go:246-260 | Appends exactly one frame to the output: the status line, the reply's fields with the recomputed length in some order of all names, the empty line, the body |
| ProxySession.Session.Cycle | proxy/proxy.go:157-267 | One loop iteration does what the cycle specification says. A failure writes nothing and stops the loop; a response writes its frame, moves the cursor past the frame, and goes on exactly for status 200 |
| ProxySession.Session.Serve | proxy/proxy.go:157-268 | The connection writes exactly the frames of the responses the connection specification yields, one after another |

## Left out

- `main`: listening, accepting connections and one goroutine per connection are left out. The model covers a single connection whose whole input is a given byte string.
- `makeRequest`: the HTTPS round trip, TLS settings and reading the reply body become an `Upstream` function parameter, which either fails or returns a status, header and body. The header canonicalisation it applies to the outgoing fields is not modelled.
- JSON text encoding and decoding: an abstract codec parameter. JSON numbers are exact reals rather than `float64`. Encoding failures of `json.Marshal` are not modelled, since the decoded values always encode.
- Sleeps and log output: these have no effect on the data and are left out.
- Errors from writing to the connection: these are not modelled. Writing appends to the `output` sequence.
- Read errors other than end of stream: these are not modelled. They end the connection the same way end of stream does.
- Text.TrimSpace, Text.ToLower: these treat only ASCII white space and ASCII letters. The Go functions also handle Unicode white space and letters. A `char` stands for one byte.
- ProxySession.Session.constructor: takes the Host value as an argument instead of computing it. The relay as written passes `Framing.HostAsWritten` (see Findings), and `ProxySession.AsWrittenHostSent` states what then reaches the upstream. The corrected relay passes `Framing.HostHeader`. Every session property holds for any Host value.
- ProxySession.Upstream: the reply header is assumed well formed (`ResponseFrame.WellFormedHeader`): every field has at least one value, and `Content-Length` is the only name that lower-cases to `content-length`. The Go HTTP client gives header names in canonical form and never an empty value list. This assumption is what makes the single `content-length` line of `ResponseFrame.ContentLengthLine` hold.
- ProxySession.Session.ReadHeaders: when a header block fails, the cursor and the header map are not specified, because the connection then closes.
- ProxySession.Session.Serve: the order in which a header map yields its names is a free choice. The contract states the frames for the chosen order, not one fixed order.
- ResponseFrame.StatusCode: a status is limited to 0..999. The HTTP client returns only three-digit codes.

## Findings

| source | as written | input that shows it | evidently intended | confidence | as-written member | corrected member |
|---|---|---|---|---|---|---|
| proxy/proxy.go:174 | The Host value is built with a print function that does not expand format verbs, giving the text `%s:%s` followed by the address and the port | address `node`, port `8332`: the value is `%s:%snode8332` | `node:8332`, as the URL on line 150 builds it | high (not executed) | Framing.HostAsWritten, with Framing.HostAsWrittenDiffers | Framing.HostHeader, with Framing.HostHeaderSplits |

=== FILE: framing.dfy ===
/**
 * The request-frame reader as functions of the byte stream and a cursor:
 * resynchronisation on a `POST` line, `name: value` field lines up to an
 * empty line, and a body of exactly `content-length` bytes. This is a loose
 * subset of the message framing of RFC 9112 (field lines in section 5, body
 * length in section 6.3).
 */
module Framing {
  import opened Wrappers
  import opened Text

  /** The key under which the relay stores the outbound Host value. */
  const HostKey: string := "Host"
  const ContentLength: string := "content-length"

  /** The reader's default buffer: a body longer than this cannot be peeked. */
  const BufferSize: nat := 4096

  /** Index just past the next line feed at or after `pos`; none before the end of the stream. */
  function LineEnd(s: string, pos: nat): (r: Option<nat>)
    requires pos <= |s|
    ensures r.None? <==> '\n' !in s[pos..]
    ensures r.Some? ==> pos < r.value <= |s| && s[r.value - 1] == '\n' && '\n' !in s[pos..r.value - 1]
  {
    match IndexOf(s[pos..], '\n')
    case None => None
    case Some(i) => assert s[pos..pos + i] == s[pos..][..i]; Some(pos + i + 1)
  }

  /** A line (terminator included) longer than four bytes whose first four are `POST`. */
  predicate IsPostLine(line: string) {
    |line| > 4 && line[..4] == "POST"
  }

  /**
   * A trimmed header line split at its first colon: the name lower-cased and
   * trimmed, the value trimmed. A line without a colon is malformed.
   */
  function ParseField(line: string): (r: Option<(string, string)>)
    ensures r.None? <==> ':' !in line
    ensures r.Some? ==> IsLower(r.value.0) && Trimmed(r.value.0) && Trimmed(r.value.1)
  {
    match IndexOf(line, ':')
    case None => None
    case Some(i) =>
      ToLowerKeepsTrimmed(TrimSpace(line[..i]));
      Some((ToLower(TrimSpace(line[..i])), TrimSpace(line[i + 1..])))
  }

  /**
   * A line with a colon is split at its first colon: the name is the text
   * before it, trimmed and lower-cased, and the value the text after it, trimmed.
   */
  lemma ParseFieldSplits(line: string)
    requires ':' in line
    ensures exists i | 0 <= i < |line| ::
              && line[i] == ':' && ':' !in line[..i]
              && ParseField(line) == Some((ToLower(TrimSpace(line[..i])), TrimSpace(line[i + 1..])))
  {
    var i := IndexOf(line, ':').value;
    assert line[i] == ':' && ':' !in line[..i];
  }

  /** Where the header block ended: the fields read and the cursor after the empty line. */
  datatype Headers = Headers(fields: map<string, string>, next: nat)

  /** The header map a `POST` line starts from. */
  function InitialFields(host: string): map<string, string> {
    map[HostKey := host]
  }

  /** What one line does to the header loop. */
  datatype Step =
    | Continue(fields: map<string, string>, awaitingPost: bool)
    | Finish
    | Malformed

  /**
   * One line of the header loop. A `POST` line (even amid the headers)
   * restarts the map from the Host entry alone; before the first one every
   * line is skipped; after it a blank line ends the block, a line without a
   * colon is malformed, and any other line sets its field, overwriting an
   * earlier one of the same name.
   */
  function Advance(line: string, fields: map<string, string>, awaitingPost: bool, host: string): Step {
    if IsPostLine(line) then Continue(InitialFields(host), false)
    else if awaitingPost then Continue(fields, true)
    else if TrimSpace(line) == [] then Finish
    else match ParseField(TrimSpace(line))
      case None => Malformed
      case Some((name, value)) => Continue(fields[name := value], false)
  }

  /** The header loop over the stream, line by line; the end of the stream fails it. */
  function ScanHeaders(s: string, pos: nat, fields: map<string, string>, awaitingPost: bool, host: string): Option<Headers>
    requires pos <= |s|
    decreases |s| - pos
  {
    match LineEnd(s, pos)
    case None => None
    case Some(end) =>
      match Advance(s[pos..end], fields, awaitingPost, host)
      case Continue(fields', awaitingPost') => ScanHeaders(s, end, fields', awaitingPost', host)
      case Finish => Some(Headers(fields, end))
      case Malformed => None
  }

  /** The shape of a header map the relay builds: the Host entry, then lower-case trimmed names. */
  predicate WellKeyed(fields: map<string, string>, host: string) {
    && HostKey in fields && fields[HostKey] == host
    && forall name | name in fields && name != HostKey :: IsLower(name) && Trimmed(name)
  }

  /** Setting a lower-case trimmed name never touches the Host entry. */
  lemma SetFieldKeepsShape(fields: map<string, string>, host: string, name: string, value: string)
    requires WellKeyed(fields, host) && IsLower(name) && Trimmed(name)
    ensures WellKeyed(fields[name := value], host)
  {
    assert !IsLower(HostKey) by {
      assert 'A' <= HostKey[0] <= 'Z';
    }
  }

  /** A line keeps the map's shape once a `POST` line has been seen, and only then ends the block. */
  lemma AdvanceKeepsShape(line: string, fields: map<string, string>, awaitingPost: bool, host: string)
    requires !awaitingPost ==> WellKeyed(fields, host)
    ensures Advance(line, fields, awaitingPost, host).Finish? ==> !awaitingPost
    ensures var step := Advance(line, fields, awaitingPost, host);
      step.Continue? && !step.awaitingPost ==> WellKeyed(step.fields, host)
  {
    if !IsPostLine(line) && !awaitingPost && TrimSpace(line) != [] {
      var field := ParseField(TrimSpace(line));
      if field.Some? {
        SetFieldKeepsShape(fields, host, field.value.0, field.value.1);
      }
    }
  }

  /**
   * A completed header block ends just past a line feed further along the
   * stream, and its map holds the Host entry and otherwise only names that
   * are lower-case and trimmed.
   */
  lemma {:induction false} ScannedHeaders(s: string, pos: nat, fields: map<string, string>, awaitingPost: bool, host: string)
    requires pos <= |s|
    requires !awaitingPost ==> WellKeyed(fields, host)
    requires ScanHeaders(s, pos, fields, awaitingPost, host).Some?
    ensures var h := ScanHeaders(s, pos, fields, awaitingPost, host).value;
      pos < h.next <= |s| && s[h.next - 1] == '\n' && WellKeyed(h.fields, host)
    decreases |s| - pos
  {
    var end := LineEnd(s, pos).value;
    var step := Advance(s[pos..end], fields, awaitingPost, host);
    AdvanceKeepsShape(s[pos..end], fields, awaitingPost, host);
    if step.Continue? {
      ScannedHeaders(s, end, step.fields, step.awaitingPost, host);
    }
  }

  /** Before the first `POST` line the map carried over from an earlier cycle plays no part. */
  lemma {:induction false} ScanIgnoresStaleFields(s: string, pos: nat, f1: map<string, string>, f2: map<string, string>, host: string)
    requires pos <= |s|
    ensures ScanHeaders(s, pos, f1, true, host) == ScanHeaders(s, pos, f2, true, host)
    decreases |s| - pos
  {
    match LineEnd(s, pos)
    case None =>
    case Some(end) =>
      if !IsPostLine(s[pos..end]) {
        ScanIgnoresStaleFields(s, end, f1, f2, host);
      }
  }

  /** One step of the header loop, case by case. */
  lemma ScanStep(s: string, pos: nat, fields: map<string, string>, awaitingPost: bool, host: string)
    requires pos <= |s|
    ensures LineEnd(s, pos).None? ==> ScanHeaders(s, pos, fields, awaitingPost, host).None?
    ensures LineEnd(s, pos).Some? ==> (':' in s[pos..LineEnd(s, pos).value] <==> ':' in TrimSpace(s[pos..LineEnd(s, pos).value]))
    ensures LineEnd(s, pos).Some? ==>
      var end := LineEnd(s, pos).value;
      var line := s[pos..end];
      var scan := ScanHeaders(s, pos, fields, awaitingPost, host);
      && (IsPostLine(line) ==> scan == ScanHeaders(s, end, map[HostKey := host], false, host))
      && (!IsPostLine(line) && awaitingPost ==> scan == ScanHeaders(s, end, fields, true, host))
      && (!IsPostLine(line) && !awaitingPost && TrimSpace(line) == [] ==> scan == Some(Headers(fields, end)))
      && (!IsPostLine(line) && !awaitingPost && TrimSpace(line) != [] && ':' !in line ==> scan.None?)
      && (!IsPostLine(line) && !awaitingPost && ':' in TrimSpace(line) ==>
            var (name, value) := ParseField(TrimSpace(line)).value;
            scan == ScanHeaders(s, end, fields[name := value], false, host))
  {
    match LineEnd(s, pos)
    case None =>
    case Some(end) =>
      var line := s[pos..end];
      TrimSpaceKeepsNonSpace(line, ':');
  }

  /** Where the body ended: its bytes and the cursor just past them. */
  datatype Body = Body(payload: string, next: nat)

  /** The declared body length: the trimmed `content-length` value as a decimal integer. */
  function DeclaredLength(fields: map<string, string>): Option<int> {
    if ContentLength in fields then Atoi(TrimSpace(fields[ContentLength])) else None
  }

  /**
   * Reading the body: a missing or non-numeric `content-length` fails, as
   * does a negative length, one beyond the read buffer, or one the rest of
   * the stream cannot supply. Otherwise exactly that many bytes are taken.
   */
  function BodyOutcome(s: string, pos: nat, fields: map<string, string>): (r: Option<Body>)
    requires pos <= |s|
    ensures r.Some? ==>
      && DeclaredLength(fields) == Some(|r.value.payload|)
      && r.value.next == pos + |r.value.payload| <= |s|
      && r.value.payload == s[pos..r.value.next]
    ensures r.None? <==>
      || DeclaredLength(fields).None?
      || !(0 <= DeclaredLength(fields).value <= BufferSize)
      || pos + DeclaredLength(fields).value > |s|
  {
    match DeclaredLength(fields)
    case None => None
    case Some(n) =>
      if n < 0 || n > BufferSize || pos + n > |s| then None
      else Some(Body(s[pos..pos + n], pos + n))
  }

  /** A body declared as 11 bytes with only 5 left in the stream is not read. */
  lemma ExampleShortBody()
    ensures BodyOutcome("hello", 0, map[ContentLength := "11"]).None?
  {
    var declared := "11";
    assert AllDigits(declared) && declared[..1] == "1";
    DigitsTrimmed(declared);
    TrimmedIsFixed(declared);
    assert DigitsValue(declared) == 11;
    assert Atoi(declared) == Some(11);
  }

  /**
   * As written, the Host value is formatted with a print function that does
   * not interpret format verbs, so the address and port are appended to the
   * literal text `%s:%s`.
   */
  function HostAsWritten(remoteAddr: string, remotePort: string): string {
    "%s:%s" + remoteAddr + remotePort
  }

  /** The Host value the relay evidently means: `address:port`. */
  function HostHeader(remoteAddr: string, remotePort: string): (r: string)
    ensures |r| == |remoteAddr| + 1 + |remotePort|
    ensures r[..|remoteAddr|] == remoteAddr && r[|remoteAddr|] == ':' && r[|remoteAddr| + 1..] == remotePort
  {
    remoteAddr + ":" + remotePort
  }

  /** The value as written is never `address:port`, whatever the configuration. */
  lemma HostAsWrittenDiffers(remoteAddr: string, remotePort: string)
    ensures HostAsWritten(remoteAddr, remotePort) != HostHeader(remoteAddr, remotePort)
  {
    assert |HostAsWritten(remoteAddr, remotePort)| == 5 + |remoteAddr| + |remotePort|;
  }

  /** The corrected value splits at its last colon back into the configured address and port. */
  lemma HostHeaderSplits(remoteAddr: string, remotePort: string)
    requires ':' !in remotePort
    ensures var r := HostHeader(remoteAddr, remotePort);
      exists i | 0 <= i < |r| :: r[i] == ':' && ':' !in r[i + 1..] && r[..i] == remoteAddr && r[i + 1..] == remotePort
  {
    var r := HostHeader(remoteAddr, remotePort);
    assert r[|remoteAddr|] == ':' && r[|remoteAddr| + 1..] == remotePort;
  }
}

=== FILE: json.dfy ===
/**
 * JSON values as the relay sees them after decoding (RFC 8259 value kinds),
 * and the text codec, which the model takes as a parameter.
 */
module JsonValue {
  import opened Wrappers
  import opened Text

  /** Numbers are kept exact; the codec decides how text maps to them. */
  datatype Json =
    | Null
    | Bool(b: bool)
    | Number(n: real)
    | String(s: string)
    | Array(items: seq<Json>)
    | Object(members: map<string, Json>)

  /** The JSON text codec: decoding may fail, encoding always succeeds. */
  datatype Codec = Codec(decode: string -> Option<Json>, encode: Json -> string)

  /** Why a body could not be transformed. */
  datatype Failure =
    | DecodeError    // not JSON, or not an object (nor null) at the top level
    | InvalidInput   // `params` missing or not an array for the rewritten method

  /**
   * The codec reads `v` back from what it writes for it, and writes no
   * surrounding white space. Properties that need this assume it only for
   * the value at hand.
   */
  predicate RoundTrips(c: Codec, v: Json) {
    TrimSpace(c.encode(v)) == c.encode(v) && c.decode(c.encode(v)) == Some(v)
  }

  /**
   * Member access on a decoded object: a missing member reads as null, as does
   * any member of the null value (a nil map after decoding `null`).
   */
  function Lookup(v: Json, key: string): (r: Json)
    ensures r != Null ==> v.Object? && key in v.members && v.members[key] == r
    ensures v.Object? && key in v.members ==> r == v.members[key]
  {
    if v.Object? && key in v.members then v.members[key] else Null
  }

  /**
   * Decoding into a string-keyed map: an object decodes to itself, `null` to
   * the nil map (no error), and any other JSON value is a type error.
   */
  function DecodeObject(c: Codec, text: string): (r: Option<Json>)
    ensures r.Some? <==> c.decode(text).Some? && (c.decode(text).value.Object? || c.decode(text).value.Null?)
    ensures r.Some? ==> r == c.decode(text)
  {
    match c.decode(text)
    case Some(v) => if v.Object? || v.Null? then Some(v) else None
    case None => None
  }
}

=== FILE: request_body.dfy ===
/**
 * The request-body normaliser: positional boolean parameters of
 * `getrawtransaction` become the integers 1 and 0; everything else is
 * forwarded as decoded.
 */
module RequestBody {
  import opened Wrappers
  import opened Text
  import opened JsonValue

  const GetRawTransaction: string := "getrawtransaction"

  /** The rewrite of one parameter: true becomes 1, false becomes 0. */
  function Coerce(v: Json): (r: Json)
    ensures !r.Bool?
    ensures !v.Bool? ==> r == v
  {
    match v
    case Bool(b) => Number(if b then 1.0 else 0.0)
    case _ => v
  }

  /** Every parameter rewritten where it stands; order and length are kept. */
  function CoerceParams(ps: seq<Json>): (r: seq<Json>)
    ensures |r| == |ps|
    ensures forall i | 0 <= i < |ps| :: r[i] == Coerce(ps[i])
  {
    if ps == [] then [] else [Coerce(ps[0])] + CoerceParams(ps[1..])
  }

  /** The method named in a decoded request is `getrawtransaction`. */
  predicate IsGetRawTransaction(request: Json) {
    Lookup(request, "method") == String(GetRawTransaction)
  }

  /**
   * The normaliser on the decoded request: for `getrawtransaction`, `params`
   * must be an array whose booleans are rewritten; any other request is
   * returned unchanged.
   */
  function NormalizeRequest(request: Json): Result<Json, Failure> {
    if !IsGetRawTransaction(request) then Ok(request)
    else
      match Lookup(request, "params")
      case Array(ps) => Ok(Object(request.members["params" := Array(CoerceParams(ps))]))
      case _ => Err(InvalidInput)
  }

  /**
   * What the normaliser does. For `getrawtransaction`, a missing or
   * non-array `params` is rejected; otherwise each boolean in it is replaced
   * at its index by 1 or 0 while every other element and every other member
   * stays as it was. Any other request is returned unchanged.
   */
  lemma NormalizeRequestSpec(request: Json)
    ensures !IsGetRawTransaction(request) ==> NormalizeRequest(request) == Ok(request)
    ensures IsGetRawTransaction(request) && !Lookup(request, "params").Array? ==> NormalizeRequest(request) == Err(InvalidInput)
    ensures IsGetRawTransaction(request) && Lookup(request, "params").Array? ==>
      var r := NormalizeRequest(request);
      r.Ok? && r.value.Object? && request.Object?
      && r.value.members.Keys == request.members.Keys
      && (forall k | k in request.members && k != "params" :: r.value.members[k] == request.members[k])
      && r.value.members["params"].Array?
      && |r.value.members["params"].items| == |request.members["params"].items|
      && (forall i | 0 <= i < |request.members["params"].items| ::
            var before, after := request.members["params"].items[i], r.value.members["params"].items[i];
            (before == Bool(true) ==> after == Number(1.0))
            && (before == Bool(false) ==> after == Number(0.0))
            && (!before.Bool? ==> after == before))
  {
  }

  lemma {:induction false} CoerceParamsIdempotent(ps: seq<Json>)
    ensures CoerceParams(CoerceParams(ps)) == CoerceParams(ps)
  {
    if ps != [] {
      CoerceParamsIdempotent(ps[1..]);
      assert CoerceParams(ps)[1..] == CoerceParams(ps[1..]);
    }
  }

  /** After normalisation no boolean is left among the parameters of `getrawtransaction`. */
  lemma NormalizedHasNoBooleans(request: Json)
    requires NormalizeRequest(request).Ok? && IsGetRawTransaction(request)
    ensures var out := NormalizeRequest(request).value;
      IsGetRawTransaction(out) && Lookup(out, "params").Array?
      && forall i | 0 <= i < |Lookup(out, "params").items| :: !Lookup(out, "params").items[i].Bool?
  {
  }

  /** Normalising a normalised request changes nothing. */
  lemma NormalizeIdempotent(request: Json)
    requires NormalizeRequest(request).Ok?
    ensures NormalizeRequest(NormalizeRequest(request).value) == NormalizeRequest(request)
  {
    if IsGetRawTransaction(request) {
      var ps := Lookup(request, "params").items;
      var out := NormalizeRequest(request).value;
      assert Lookup(out, "method") == Lookup(request, "method");
      assert Lookup(out, "params") == Array(CoerceParams(ps));
      CoerceParamsIdempotent(ps);
      assert out.members["params" := Array(CoerceParams(CoerceParams(ps)))] == out.members;
    }
  }

  /**
   * The whole body transformation: trim, decode into an object, normalise,
   * re-encode. A decode failure or an invalid `params` yields no body.
   */
  function InputOutcome(c: Codec, input: string): Result<string, Failure> {
    match DecodeObject(c, TrimSpace(input))
    case None => Err(DecodeError)
    case Some(request) =>
      match NormalizeRequest(request)
      case Ok(out) => Ok(c.encode(out))
      case Err(e) => Err(e)
  }

  /**
   * The outcome case by case: a body that does not decode to an object is a
   * decode error; a `getrawtransaction` request without an array `params` is
   * invalid input; anything else is forwarded as the encoding of the
   * normalised request.
   */
  lemma InputOutcomeSpec(c: Codec, input: string)
    ensures DecodeObject(c, TrimSpace(input)).None? <==> InputOutcome(c, input) == Err(DecodeError)
    ensures InputOutcome(c, input) == Err(InvalidInput) <==>
      var decoded := DecodeObject(c, TrimSpace(input));
      decoded.Some? && IsGetRawTransaction(decoded.value) && !Lookup(decoded.value, "params").Array?
    ensures InputOutcome(c, input).Ok? ==>
      var request := DecodeObject(c, TrimSpace(input)).value;
      NormalizeRequest(request).Ok? && InputOutcome(c, input).value == c.encode(NormalizeRequest(request).value)
  {
    var decoded := DecodeObject(c, TrimSpace(input));
    if decoded.Some? {
      NormalizeRequestSpec(decoded.value);
    }
  }

  /** White space around the body has no effect on the outcome. */
  lemma InputIgnoresSurroundingSpace(c: Codec, pre: string, input: string, post: string)
    requires AllSpace(pre) && AllSpace(post)
    ensures InputOutcome(c, pre + input + post) == InputOutcome(c, input)
  {
    TrimSpaceAbsorbs(pre, input, post);
  }

  /**
   * When the codec reads the decoded request back from its encoding, a body
   * that is not a `getrawtransaction` request is forwarded with exactly the
   * content that was decoded from it.
   */
  lemma ForwardedContentUnchanged(c: Codec, input: string)
    requires InputOutcome(c, input).Ok?
    requires RoundTrips(c, DecodeObject(c, TrimSpace(input)).value)
    requires !IsGetRawTransaction(DecodeObject(c, TrimSpace(input)).value)
    ensures c.decode(InputOutcome(c, input).value) == DecodeObject(c, TrimSpace(input))
  {
  }

  /**
   * When the codec reads the normalised request back from its encoding,
   * feeding the forwarded body through the normaliser again forwards the
   * same body.
   */
  lemma InputIdempotent(c: Codec, input: string)
    requires InputOutcome(c, input).Ok?
    requires RoundTrips(c, NormalizeRequest(DecodeObject(c, TrimSpace(input)).value).value)
    ensures InputOutcome(c, InputOutcome(c, input).value) == InputOutcome(c, input)
  {
    var request := DecodeObject(c, TrimSpace(input)).value;
    var out := NormalizeRequest(request).value;
    var text := c.encode(out);
    assert out.Object? || out.Null?;
    assert DecodeObject(c, TrimSpace(text)) == Some(out);
    NormalizeIdempotent(request);
  }

  /**
   * The rewrite loop over the `params` slice: each boolean is overwritten
   * where it stands, every other element is left in place.
   */
  method CoerceInPlace(params: array<Json>)
    modifies params
    ensures params[..] == CoerceParams(old(params[..]))
  {
    var i := 0;
    while i < params.Length
      invariant 0 <= i <= params.Length
      invariant forall k | 0 <= k < i :: params[k] == Coerce(old(params[k]))
      invariant forall k | i <= k < params.Length :: params[k] == old(params[k])
    {
      if params[i].Bool? {
        params[i] := Number(if params[i].b then 1.0 else 0.0);
      }
      i := i + 1;
    }
  }

  /** The decoded `params` slice, rewritten in place. */
  method RewriteParams(items: seq<Json>) returns (r: seq<Json>)
    ensures r == CoerceParams(items)
  {
    var params := new Json[|items|](i requires 0 <= i < |items| => items[i]);
    assert params[..] == items;
    CoerceInPlace(params);
    r := params[..];
  }

  /**
   * The normaliser as the relay runs it: decode the trimmed body, rewrite
   * the parameters of `getrawtransaction`, re-encode.
   */
  method ProcessInput(c: Codec, input: string) returns (r: Result<string, Failure>)
    ensures r == InputOutcome(c, input)
  {
    var decoded := DecodeObject(c, TrimSpace(input));
    if decoded.None? {
      return Err(DecodeError);
    }
    var request := decoded.value;
    if Lookup(request, "method") == String(GetRawTransaction) {
      var p := Lookup(request, "params");
      if !p.Array? {
        return Err(InvalidInput);
      }
      var params := RewriteParams(p.items);
      request := Object(request.members["params" := Array(params)]);
    }
    return Ok(c.encode(request));
  }

  /** The example request: `["abc", true]` is forwarded as `["abc", 1]`. */
  lemma ExampleGetRawTransaction()
    ensures var request := Object(map["method" := String(GetRawTransaction), "params" := Array([String("abc"), Bool(true)])]);
      NormalizeRequest(request) == Ok(Object(map["method" := String(GetRawTransaction), "params" := Array([String("abc"), Number(1.0)])]))
  {
    var ps := [String("abc"), Bool(true)];
    var m := map["method" := String(GetRawTransaction), "params" := Array(ps)];
    assert IsGetRawTransaction(Object(m));
    assert Lookup(Object(m), "params") == Array(ps);
    var coerced := CoerceParams(ps);
    assert coerced[0] == String("abc") && coerced[1] == Number(1.0);
    assert coerced == [String("abc"), Number(1.0)];
    assert m["params" := Array(coerced)] == map["method" := String(GetRawTransaction), "params" := Array(coerced)];
  }
}

=== FILE: response_body.dfy ===
/**
 * The response-body classifier: the upstream reply is decoded, flagged as an
 * internal error when it carries a non-null `error` member (the error object
 * of section 5 of JSON-RPC 2.0), and re-encoded without change.
 */
module ResponseBody {
  import opened Wrappers
  import opened JsonValue

  /** The re-encoded reply and whether it reports an upstream error. */
  datatype Classified = Classified(body: string, internalError: bool)

  function OutputOutcome(c: Codec, input: string): (r: Result<Classified, Failure>)
    ensures DecodeObject(c, input).None? <==> r == Err(DecodeError)
    ensures r.Ok? <==> DecodeObject(c, input).Some?
    ensures r.Ok? ==>
      var reply := DecodeObject(c, input).value;
      r.value.body == c.encode(reply)
      && (r.value.internalError <==> reply.Object? && "error" in reply.members && reply.members["error"] != Null)
  {
    match DecodeObject(c, input)
    case None => Err(DecodeError)
    case Some(reply) => Ok(Classified(c.encode(reply), Lookup(reply, "error") != Null))
  }

  /**
   * When the codec reads the decoded reply back from its encoding, the body
   * passed on to the client holds exactly that reply, error member included.
   */
  lemma OutputContentUnchanged(c: Codec, input: string)
    requires OutputOutcome(c, input).Ok?
    requires RoundTrips(c, DecodeObject(c, input).value)
    ensures c.decode(OutputOutcome(c, input).value.body) == DecodeObject(c, input)
  {
  }
}

=== FILE: response_frame.dfy ===
/**
 * The response frame written back to the client: a status line with the
 * three-digit code and the fixed reason `OK`, the upstream header fields with
 * lower-cased names and `content-length` recomputed, an empty line, the body.
 */
module ResponseFrame {
  import opened Wrappers
  import opened Text
  import opened Framing

  /** The upstream's HTTP client only yields three-digit status codes. */
  type StatusCode = n: int | 0 <= n < 1000

  const StatusOk: StatusCode := 200
  const StatusInternalError: StatusCode := 500

  /** The canonical form under which the upstream header map keeps the length field. */
  const ContentLengthKey: string := "Content-Length"

  /**
   * What the upstream returned: status, header fields (each with one or more
   * values) and the full body.
   */
  datatype Reply = Reply(status: StatusCode, header: map<string, seq<string>>, body: string)

  /** Every field has at least one value. */
  predicate Valued(header: map<string, seq<string>>) {
    forall name | name in header :: |header[name]| > 0
  }

  /**
   * The header map as the upstream's HTTP client delivers it: every field has
   * a value, and names are in canonical form, so only `Content-Length` itself
   * lower-cases to `content-length`.
   */
  predicate WellFormedHeader(header: map<string, seq<string>>) {
    && Valued(header)
    && (forall name | name in header && ToLower(name) == ContentLength :: name == ContentLengthKey)
  }

  type UpstreamReply = r: Reply | WellFormedHeader(r.header) witness Reply(200, map[], "")

  /** The code sent to the client: 500 when the reply reports an error, else the upstream's. */
  function DeriveStatus(upstream: StatusCode, internalError: bool): StatusCode {
    if internalError then StatusInternalError else upstream
  }

  /** The session goes on to another cycle only after a 200 response. */
  predicate Continues(status: StatusCode) {
    status == StatusOk
  }

  /**
   * An upstream-reported error always reaches the client as 500 and ends the
   * session; otherwise the upstream's code is passed on and decides.
   */
  lemma StatusRule(upstream: StatusCode, internalError: bool)
    ensures internalError ==> DeriveStatus(upstream, internalError) == 500 && !Continues(DeriveStatus(upstream, internalError))
    ensures !internalError ==> DeriveStatus(upstream, internalError) == upstream
    ensures Continues(DeriveStatus(upstream, internalError)) <==> !internalError && upstream == 200
  {
  }

  function StatusLine(status: StatusCode): string {
    "HTTP/1.1 " + Pad3(status) + " OK\r\n"
  }

  /** The status line is 17 bytes: the version, three digits that read back as the code, and `OK`. */
  lemma StatusLineShape(status: StatusCode)
    ensures var line := StatusLine(status);
      |line| == 17 && line[..9] == "HTTP/1.1 " && line[12..] == " OK\r\n"
      && AllDigits(line[9..12]) && Atoi(line[9..12]) == Some(status)
  {
    Pad3Parses(status);
    var line := StatusLine(status);
    assert line[9..12] == Pad3(status);
  }

  /** The upstream header with `content-length` set to the body's decimal length. */
  function WithContentLength(header: map<string, seq<string>>, body: string): map<string, seq<string>> {
    header[ContentLengthKey := [Itoa(|body|)]]
  }

  /** Setting the length field keeps the header map well formed. */
  lemma SetLengthWellFormed(header: map<string, seq<string>>, values: seq<string>)
    requires WellFormedHeader(header) && |values| > 0
    ensures WellFormedHeader(header[ContentLengthKey := values])
  {
    var h := header[ContentLengthKey := values];
    forall name | name in h && ToLower(name) == ContentLength
      ensures name == ContentLengthKey
    {
      if name in header {
      }
    }
  }

  lemma WithContentLengthWellFormed(header: map<string, seq<string>>, body: string)
    requires WellFormedHeader(header)
    ensures WellFormedHeader(WithContentLength(header, body))
    ensures WithContentLength(header, body)[ContentLengthKey] == [Itoa(|body|)]
  {
    SetLengthWellFormed(header, [Itoa(|body|)]);
  }

  /** Every key of `header` listed exactly once, in some order. */
  predicate IsOrdering(order: seq<string>, keys: set<string>) {
    && (forall i, j | 0 <= i < j < |order| :: order[i] != order[j])
    && (forall name | name in keys :: name in order)
    && (forall i | 0 <= i < |order| :: order[i] in keys)
  }

  predicate HasValues(header: map<string, seq<string>>, order: seq<string>) {
    forall i | 0 <= i < |order| :: order[i] in header && |header[order[i]]| > 0
  }

  /** One emitted field line: lower-cased name, first value. */
  function HeaderLine(name: string, value: string): string {
    ToLower(name) + ": " + value + "\r\n"
  }

  function HeaderLines(header: map<string, seq<string>>, order: seq<string>): seq<string>
    requires HasValues(header, order)
  {
    seq(|order|, i requires 0 <= i < |order| => HeaderLine(order[i], header[order[i]][0]))
  }

  function Concat(parts: seq<string>): string {
    if parts == [] then [] else Concat(parts[..|parts| - 1]) + parts[|parts| - 1]
  }

  /** Concatenating one more part appends it. */
  lemma ConcatAppend(parts: seq<string>, last: string)
    ensures Concat(parts + [last]) == Concat(parts) + last
  {
    assert (parts + [last])[..|parts|] == parts;
  }

  /** Text followed by the concatenation of some parts, then one more part. */
  lemma ConcatExtend(prefix: string, parts: seq<string>, last: string)
    ensures prefix + Concat(parts) + last == prefix + Concat(parts + [last])
  {
    ConcatAppend(parts, last);
  }

  /**
   * Emitting one more field not yet emitted: the ordering grows by that name
   * and the header block by its line.
   */
  lemma EmitField(header: map<string, seq<string>>, order: seq<string>, done: set<string>, name: string)
    requires IsOrdering(order, done) && HasValues(header, order)
    requires name in header && |header[name]| > 0 && name !in done
    ensures IsOrdering(order + [name], done + {name})
    ensures HasValues(header, order + [name])
    ensures Concat(HeaderLines(header, order + [name])) == Concat(HeaderLines(header, order)) + HeaderLine(name, header[name][0])
  {
    assert HeaderLines(header, order + [name]) == HeaderLines(header, order) + [HeaderLine(name, header[name][0])];
    ConcatAppend(HeaderLines(header, order), HeaderLine(name, header[name][0]));
  }

  /** The whole frame, with the header fields emitted in the given order. */
  function Frame(status: StatusCode, header: map<string, seq<string>>, order: seq<string>, body: string): string
    requires HasValues(header, order)
  {
    StatusLine(status) + Concat(HeaderLines(header, order)) + "\r\n" + body
  }

  /** The frame opens with the status line and closes with an empty line followed by exactly the body. */
  lemma FrameLayout(status: StatusCode, header: map<string, seq<string>>, order: seq<string>, body: string)
    requires HasValues(header, order)
    ensures var f := Frame(status, header, order, body);
      |f| >= 17 + 2 + |body|
      && f[..17] == StatusLine(status)
      && f[|f| - |body| - 2..|f| - |body|] == "\r\n"
      && f[|f| - |body|..] == body
  {
    StatusLineShape(status);
    var f := Frame(status, header, order, body);
    var block := Concat(HeaderLines(header, order));
    assert f == StatusLine(status) + (block + "\r\n" + body);
  }

  lemma LowerContentLengthKey()
    ensures ToLower(ContentLengthKey) == ContentLength
  {
    var t := ToLower(ContentLengthKey);
    forall i | 0 <= i < |t| ensures t[i] == ContentLength[i] {
      assert t[i] == LowerChar(ContentLengthKey[i]);
    }
  }

  /** A field line starts with the lower-cased name. */
  lemma HeaderLineName(name: string, value: string)
    ensures |HeaderLine(name, value)| >= |name|
    ensures HeaderLine(name, value)[..|name|] == ToLower(name)
    ensures IsLower(HeaderLine(name, value)[..|name|])
  {
    assert HeaderLine(name, value) == ToLower(name) + (": " + value + "\r\n");
  }

  /**
   * Whatever the order, the frame has exactly one `content-length` field
   * line, and it carries the body's length in decimal; every emitted name is
   * lower-case.
   */
  lemma ContentLengthLine(header: map<string, seq<string>>, body: string, order: seq<string>)
    requires WellFormedHeader(header)
    requires IsOrdering(order, WithContentLength(header, body).Keys)
    ensures HasValues(WithContentLength(header, body), order)
    ensures var lines := HeaderLines(WithContentLength(header, body), order);
      && (forall i | 0 <= i < |order| :: |lines[i]| >= |order[i]| && IsLower(lines[i][..|order[i]|]))
      && (exists i | 0 <= i < |order| :: lines[i] == ContentLength + ": " + Itoa(|body|) + "\r\n")
      && (forall i, j | 0 <= i < |order| && 0 <= j < |order| && ToLower(order[i]) == ContentLength && ToLower(order[j]) == ContentLength :: i == j)
  {
    var h := WithContentLength(header, body);
    var lines := HeaderLines(h, order);
    assert ContentLengthKey in h;
    var i :| 0 <= i < |order| && order[i] == ContentLengthKey;
    LowerContentLengthKey();
    assert lines[i] == HeaderLine(ContentLengthKey, Itoa(|body|));
    forall k | 0 <= k < |order| ensures |lines[k]| >= |order[k]| && IsLower(lines[k][..|order[k]|]) {
      HeaderLineName(order[k], h[order[k]][0]);
    }
    forall k, j | 0 <= k < |order| && 0 <= j < |order| && ToLower(order[k]) == ContentLength && ToLower(order[j]) == ContentLength
      ensures k == j
    {
      assert order[k] == ContentLengthKey && order[j] == ContentLengthKey;
    }
  }

  /** The length the writer declares is one the reader accepts as exactly the body length. */
  lemma ContentLengthReadsBack(body: string)
    requires |body| <= MaxInt64
    ensures DeclaredLength(map[ContentLength := Itoa(|body|)]) == Some(|body|)
  {
    var digits := Itoa(|body|);
    DigitsTrimmed(digits);
    TrimmedIsFixed(digits);
    AtoiItoa(|body|);
    assert DeclaredLength(map[ContentLength := digits]) == Atoi(TrimSpace(digits));
  }
}

=== FILE: session.dfy ===
/**
 * One client connection: the request frames read off the stream, each body
 * normalised and forwarded, each reply framed and written back, until a
 * cycle fails or answers with a status other than 200.
 */
module ProxySession {
  import opened Wrappers
  import opened Text
  import opened JsonValue
  import opened RequestBody
  import opened ResponseBody
  import opened Framing
  import opened ResponseFrame

  /**
   * The upstream node: given its URL, the request header fields and the
   * forwarded body, it answers with a reply, or fails.
   */
  type Upstream = (string, map<string, string>, string) -> Option<UpstreamReply>

  /** The URL the relay posts to. */
  function UpstreamUrl(remoteAddr: string, remotePort: string): (r: string)
    ensures r == "https://" + HostHeader(remoteAddr, remotePort)
  {
    "https://" + remoteAddr + ":" + remotePort
  }

  /** What one cycle of the connection loop comes to. */
  datatype CycleOutcome =
    | Terminated
    | Responded(status: StatusCode, header: map<string, seq<string>>, body: string, next: nat, fields: map<string, string>)

  /**
   * One cycle from cursor `pos`: the header block, the body, the rewritten
   * body, the upstream reply, its classification and the response sent.
   * Any failure on the way ends the connection with nothing written.
   */
  function CycleSpec(s: string, pos: nat, fields: map<string, string>, host: string, url: string, c: Codec, up: Upstream): CycleOutcome
    requires pos <= |s|
  {
    match ScanHeaders(s, pos, fields, true, host)
    case None => Terminated
    case Some(h) =>
      ScannedHeaders(s, pos, fields, true, host);
      match BodyOutcome(s, h.next, h.fields)
      case None => Terminated
      case Some(b) =>
        match InputOutcome(c, b.payload)
        case Err(_) => Terminated
        case Ok(forwarded) =>
          match up(url, h.fields, forwarded)
          case None => Terminated
          case Some(reply) =>
            match OutputOutcome(c, reply.body)
            case Err(_) => Terminated
            case Ok(classified) =>
              Responded(DeriveStatus(reply.status, classified.internalError),
                        WithContentLength(reply.header, classified.body), classified.body, b.next, h.fields)
  }

  /**
   * A cycle that responds has read a header block and a body further along
   * the stream, the response header is the reply's with `content-length`
   * recomputed, and the Host entry went out to the upstream.
   */
  lemma CycleResponds(s: string, pos: nat, fields: map<string, string>, host: string, url: string, c: Codec, up: Upstream)
    requires pos <= |s|
    requires CycleSpec(s, pos, fields, host, url, c, up).Responded?
    ensures var o := CycleSpec(s, pos, fields, host, url, c, up);
      && pos < o.next <= |s|
      && WellKeyed(o.fields, host)
      && DeclaredLength(o.fields).Some?
      && o.header[ContentLengthKey] == [Itoa(|o.body|)]
      && WellFormedHeader(o.header)
  {
    ScannedHeaders(s, pos, fields, true, host);
    var h := ScanHeaders(s, pos, fields, true, host).value;
    var b := BodyOutcome(s, h.next, h.fields).value;
    var forwarded := InputOutcome(c, b.payload).value;
    var reply := up(url, h.fields, forwarded).value;
    var classified := OutputOutcome(c, reply.body).value;
    WithContentLengthWellFormed(reply.header, classified.body);
  }

  /**
   * With the Host value as the relay writes it, every cycle that responds has
   * sent the upstream a `Host` entry that is not `address:port`.
   */
  lemma AsWrittenHostSent(s: string, pos: nat, fields: map<string, string>, remoteAddr: string, remotePort: string, c: Codec, up: Upstream)
    requires pos <= |s|
    requires CycleSpec(s, pos, fields, HostAsWritten(remoteAddr, remotePort), UpstreamUrl(remoteAddr, remotePort), c, up).Responded?
    ensures var o := CycleSpec(s, pos, fields, HostAsWritten(remoteAddr, remotePort), UpstreamUrl(remoteAddr, remotePort), c, up);
      HostKey in o.fields && o.fields[HostKey] == HostAsWritten(remoteAddr, remotePort)
      && o.fields[HostKey] != HostHeader(remoteAddr, remotePort)
  {
    CycleResponds(s, pos, fields, HostAsWritten(remoteAddr, remotePort), UpstreamUrl(remoteAddr, remotePort), c, up);
    HostAsWrittenDiffers(remoteAddr, remotePort);
  }

  /** The sequence of responses a connection produces from cursor `pos` onwards. */
  function Run(s: string, pos: nat, fields: map<string, string>, host: string, url: string, c: Codec, up: Upstream): seq<CycleOutcome>
    requires pos <= |s|
    decreases |s| - pos
  {
    var o := CycleSpec(s, pos, fields, host, url, c, up);
    if o.Terminated? then []
    else
      CycleResponds(s, pos, fields, host, url, c, up);
      [o] + if Continues(o.status) then Run(s, o.next, o.fields, host, url, c, up) else []
  }

  /**
   * A sequence of responses as a connection can produce them from cursor
   * `pos` over a stream of `len` bytes: every response but the last has
   * status 200, and each consumed a frame strictly after its predecessor's.
   */
  ghost predicate Chained(r: seq<CycleOutcome>, pos: nat, len: nat) {
    && (forall i | 0 <= i < |r| :: r[i].Responded? && pos < r[i].next <= len)
    && (forall i | 0 <= i < |r| - 1 :: r[i].status == StatusOk)
    && (forall i | 0 < i < |r| :: r[i - 1].next < r[i].next)
  }

  lemma ChainedCons(o: CycleOutcome, rest: seq<CycleOutcome>, pos: nat, len: nat)
    requires o.Responded? && pos < o.next <= len
    requires Chained(rest, o.next, len)
    requires rest != [] ==> o.status == StatusOk
    ensures Chained([o] + rest, pos, len)
  {
    var r := [o] + rest;
    forall i | 0 < i < |r| ensures r[i - 1].next < r[i].next {
      assert r[i] == rest[i - 1];
    }
  }

  /** How one cycle's outcome extends the connection's responses. */
  lemma RunStep(s: string, pos: nat, fields: map<string, string>, host: string, url: string, c: Codec, up: Upstream)
    requires pos <= |s|
    ensures var o := CycleSpec(s, pos, fields, host, url, c, up);
      && (o.Terminated? ==> Run(s, pos, fields, host, url, c, up) == [])
      && (o.Responded? ==> pos < o.next <= |s|)
      && (o.Responded? && !Continues(o.status) ==> Run(s, pos, fields, host, url, c, up) == [o])
      && (o.Responded? && Continues(o.status) ==>
            Run(s, pos, fields, host, url, c, up) == [o] + Run(s, o.next, o.fields, host, url, c, up))
  {
    var o := CycleSpec(s, pos, fields, host, url, c, up);
    if o.Responded? {
      CycleResponds(s, pos, fields, host, url, c, up);
    }
  }

  /** A cycle that ends the connection adds at most its own response. */
  lemma RunEnds(responses: seq<CycleOutcome>, s: string, pos: nat, fields: map<string, string>, host: string, url: string, c: Codec, up: Upstream)
    requires pos <= |s|
    requires var o := CycleSpec(s, pos, fields, host, url, c, up); o.Terminated? || !Continues(o.status)
    ensures var o := CycleSpec(s, pos, fields, host, url, c, up);
      responses + Run(s, pos, fields, host, url, c, up) == if o.Terminated? then responses else responses + [o]
  {
    RunStep(s, pos, fields, host, url, c, up);
    assert responses + [] == responses;
  }

  lemma Shift<T>(before: seq<T>, x: T, after: seq<T>)
    ensures before + ([x] + after) == (before + [x]) + after
  {
  }

  /** A cycle answered with 200 adds its response and leaves the rest to the next cycle. */
  lemma RunGoesOn(responses: seq<CycleOutcome>, s: string, pos: nat, fields: map<string, string>, host: string, url: string, c: Codec, up: Upstream)
    requires pos <= |s|
    requires var o := CycleSpec(s, pos, fields, host, url, c, up); o.Responded? && Continues(o.status)
    ensures var o := CycleSpec(s, pos, fields, host, url, c, up);
      && pos < o.next <= |s|
      && responses + Run(s, pos, fields, host, url, c, up) == (responses + [o]) + Run(s, o.next, o.fields, host, url, c, up)
  {
    var o := CycleSpec(s, pos, fields, host, url, c, up);
    RunStep(s, pos, fields, host, url, c, up);
    Shift(responses, o, Run(s, o.next, o.fields, host, url, c, up));
  }

  /** The responses of a connection are chained. */
  lemma {:induction false} RunChained(s: string, pos: nat, fields: map<string, string>, host: string, url: string, c: Codec, up: Upstream)
    requires pos <= |s|
    ensures Chained(Run(s, pos, fields, host, url, c, up), pos, |s|)
    decreases |s| - pos
  {
    var o := CycleSpec(s, pos, fields, host, url, c, up);
    if o.Responded? {
      CycleResponds(s, pos, fields, host, url, c, up);
      var rest := if Continues(o.status) then Run(s, o.next, o.fields, host, url, c, up) else [];
      if Continues(o.status) {
        RunChained(s, o.next, o.fields, host, url, c, up);
      }
      assert Run(s, pos, fields, host, url, c, up) == [o] + rest;
      ChainedCons(o, rest, pos, |s|);
    }
  }

  /** Each response went out as a frame, with its header fields in the order chosen for it. */
  ghost predicate Written(responses: seq<CycleOutcome>, orders: seq<seq<string>>, frames: seq<string>) {
    && |responses| == |orders| == |frames|
    && forall i | 0 <= i < |responses| ::
         && responses[i].Responded?
         && IsOrdering(orders[i], responses[i].header.Keys)
         && HasValues(responses[i].header, orders[i])
         && frames[i] == Frame(responses[i].status, responses[i].header, orders[i], responses[i].body)
  }

  /**
   * The field loop of the writer: every field of `h` appended to `buf` as a
   * line, in whatever order the map yields its names.
   */
  method AppendFields(buf: string, h: map<string, seq<string>>) returns (out: string, ghost order: seq<string>)
    requires Valued(h)
    ensures IsOrdering(order, h.Keys) && HasValues(h, order)
    ensures out == buf + Concat(HeaderLines(h, order))
  {
    var block: string := [];
    var remaining := h.Keys;
    ghost var done: set<string> := {};
    order := [];
    while remaining != {}
      invariant done + remaining == h.Keys && done !! remaining
      invariant IsOrdering(order, done) && HasValues(h, order)
      invariant block == Concat(HeaderLines(h, order))
      decreases remaining
    {
      var name :| name in remaining;
      EmitField(h, order, done, name);
      block := block + HeaderLine(name, h[name][0]);
      order := order + [name];
      done := done + {name};
      remaining := remaining - {name};
    }
    out := buf + block;
  }

  lemma WrittenAppend(responses: seq<CycleOutcome>, orders: seq<seq<string>>, frames: seq<string>, o: CycleOutcome, order: seq<string>)
    requires Written(responses, orders, frames)
    requires o.Responded? && IsOrdering(order, o.header.Keys) && HasValues(o.header, order)
    ensures Written(responses + [o], orders + [order], frames + [Frame(o.status, o.header, order, o.body)])
  {
  }

  /**
   * A client connection: the byte stream it delivers, read through a cursor;
   * the header map, which lives across cycles; and the bytes written back.
   */
  class Session {
    const stream: string
    const host: string
    const url: string
    var pos: nat
    var headers: map<string, string>
    var output: string

    ghost predicate Valid()
      reads this
    {
      pos <= |stream|
    }

    /**
     * A new connection. The Host value is given by the caller: the relay as
     * written passes `HostAsWritten`, the corrected relay `HostHeader`.
     */
    constructor (stream: string, remoteAddr: string, remotePort: string, host: string)
      ensures Valid()
      ensures this.stream == stream && pos == 0 && headers == map[] && output == []
      ensures this.host == host && url == UpstreamUrl(remoteAddr, remotePort)
    {
      this.stream := stream;
      this.host := host;
      url := UpstreamUrl(remoteAddr, remotePort);
      pos := 0;
      headers := map[];
      output := [];
    }

    /**
     * The header loop: line by line until the empty line that follows a
     * `POST` line. On success the cursor stands just past that empty line.
     */
    method ReadHeaders() returns (ok: bool)
      requires Valid()
      modifies this
      ensures Valid() && output == old(output)
      ensures var scan := ScanHeaders(stream, old(pos), old(headers), true, host);
        && (ok <==> scan.Some?)
        && (ok ==> pos == scan.value.next && headers == scan.value.fields)
    {
      var awaitingPost := true;
      while true
        invariant Valid() && output == old(output)
        invariant ScanHeaders(stream, pos, headers, awaitingPost, host) == ScanHeaders(stream, old(pos), old(headers), true, host)
        decreases |stream| - pos
      {
        var end := LineEnd(stream, pos);
        if end.None? {
          pos := |stream|;
          return false;
        }
        var line := stream[pos..end.value];
        pos := end.value;
        if IsPostLine(line) {
          awaitingPost := false;
          headers := InitialFields(host);
          continue;
        }
        if awaitingPost {
          continue;
        }
        var trimmed := TrimSpace(line);
        if trimmed == [] {
          return true;
        }
        var field := ParseField(trimmed);
        if field.None? {
          return false;
        }
        headers := headers[field.value.0 := field.value.1];
      }
    }

    /**
     * The body read: the declared length is looked up and parsed, that many
     * bytes are peeked, then discarded from the stream.
     */
    method ReadBody() returns (payload: Option<string>)
      requires Valid()
      modifies this
      ensures Valid() && headers == old(headers) && output == old(output)
      ensures var b := BodyOutcome(stream, old(pos), headers);
        && (payload.Some? <==> b.Some?)
        && (b.Some? ==> payload.value == b.value.payload && pos == b.value.next)
        && (b.None? ==> pos == old(pos))
    {
      if ContentLength !in headers {
        return None;
      }
      var length := Atoi(TrimSpace(headers[ContentLength]));
      if length.None? {
        return None;
      }
      var n := length.value;
      if n < 0 || n > BufferSize || pos + n > |stream| {
        return None;
      }
      payload := Some(stream[pos..pos + n]);
      pos := pos + n;
    }

    /**
     * The response: the status line, then `content-length` set on the reply
     * header and every field emitted, then the empty line and the body, all
     * appended to the output at once.
     */
    method WriteResponse(status: StatusCode, header: map<string, seq<string>>, body: string) returns (ghost order: seq<string>)
      requires WellFormedHeader(header)
      modifies this
      ensures pos == old(pos) && headers == old(headers)
      ensures IsOrdering(order, WithContentLength(header, body).Keys)
      ensures HasValues(WithContentLength(header, body), order)
      ensures output == old(output) + Frame(status, WithContentLength(header, body), order, body)
    {
      var h := WithContentLength(header, body);
      WithContentLengthWellFormed(header, body);
      var buf := StatusLine(status);
      buf, order := AppendFields(buf, h);
      buf := buf + "\r\n" + body;
      output := output + buf;
    }

    /**
     * One cycle of the connection loop. It says whether the loop goes on,
     * which happens only after a 200 response.
     */
    method Cycle(c: Codec, up: Upstream) returns (next: bool, ghost outcome: CycleOutcome, ghost order: seq<string>)
      requires Valid()
      modifies this
      ensures Valid()
      ensures outcome == CycleSpec(stream, old(pos), old(headers), host, url, c, up)
      ensures outcome.Terminated? ==> output == old(output) && !next
      ensures outcome.Responded? ==>
        && pos == outcome.next && headers == outcome.fields
        && IsOrdering(order, outcome.header.Keys) && HasValues(outcome.header, order)
        && output == old(output) + Frame(outcome.status, outcome.header, order, outcome.body)
        && (next <==> Continues(outcome.status))
    {
      outcome := CycleSpec(stream, pos, headers, host, url, c, up);
      order := [];
      var ok := ReadHeaders();
      if !ok {
        return false, outcome, order;
      }
      var payload := ReadBody();
      if payload.None? {
        return false, outcome, order;
      }
      var forwarded := ProcessInput(c, payload.value);
      if forwarded.Err? {
        return false, outcome, order;
      }
      var reply := up(url, headers, forwarded.value);
      if reply.None? {
        return false, outcome, order;
      }
      var classified := OutputOutcome(c, reply.value.body);
      if classified.Err? {
        return false, outcome, order;
      }
      var status := reply.value.status;
      if classified.value.internalError {
        status := StatusInternalError;
      }
      order := WriteResponse(status, reply.value.header, classified.value.body);
      next := status == StatusOk;
    }

    /**
     * The connection loop: cycles run until one fails or responds with a
     * status other than 200. The output is the frames of the responses the
     * connection produces, one after another.
     */
    method Serve(c: Codec, up: Upstream) returns (ghost responses: seq<CycleOutcome>, ghost orders: seq<seq<string>>, ghost frames: seq<string>)
      requires Valid()
      modifies this
      ensures Valid()
      ensures responses == Run(stream, old(pos), old(headers), host, url, c, up)
      ensures Written(responses, orders, frames)
      ensures output == old(output) + Concat(frames)
    {
      responses, orders, frames := [], [], [];
      ghost var expected := Run(stream, pos, headers, host, url, c, up);
      assert expected == responses + expected;
      var next := true;
      while next
        invariant Valid()
        invariant Written(responses, orders, frames)
        invariant output == old(output) + Concat(frames)
        invariant next ==> expected == responses + Run(stream, pos, headers, host, url, c, up)
        invariant !next ==> expected == responses
        decreases if next then |stream| - pos + 1 else 0
      {
        ghost var o := CycleSpec(stream, pos, headers, host, url, c, up);
        if o.Responded? && Continues(o.status) {
          RunGoesOn(responses, stream, pos, headers, host, url, c, up);
        } else {
          RunEnds(responses, stream, pos, headers, host, url, c, up);
        }
        ghost var outcome, order;
        next, outcome, order := Cycle(c, up);
        if outcome.Responded? {
          ghost var frame := Frame(outcome.status, outcome.header, order, outcome.body);
          ConcatExtend(old(output), frames, frame);
          WrittenAppend(responses, orders, frames, outcome, order);
          responses, orders, frames := responses + [outcome], orders + [order], frames + [frame];
        }
      }
    }
  }
}

=== FILE: text.dfy ===
/**
 * The string helpers the relay relies on: white-space trimming, lower-casing,
 * finding the first separator, and decimal conversion in both directions.
 * A `char` stands for one byte of the connection.
 */
module Text {
  import opened Wrappers

  /** The ASCII white space that trimming removes: tab, LF, VT, FF, CR, space. */
  predicate IsSpace(c: char) {
    c == ' ' || c == '\t' || c == '\n' || c == '\r' || c == '\U{000B}' || c == '\U{000C}'
  }

  predicate AllSpace(s: string) {
    forall i | 0 <= i < |s| :: IsSpace(s[i])
  }

  /** Neither end of `s` is white space (an empty string qualifies). */
  predicate Trimmed(s: string) {
    s == [] || (!IsSpace(s[0]) && !IsSpace(s[|s| - 1]))
  }

  /** A white-space byte in front of a suffix preceded only by white space. */
  lemma SpaceBefore(s: string, r: string)
    requires |s| > 0 && IsSpace(s[0])
    requires |r| <= |s| - 1 && r == s[1..][|s| - 1 - |r|..] && AllSpace(s[1..][..|s| - 1 - |r|])
    ensures r == s[|s| - |r|..] && AllSpace(s[..|s| - |r|])
  {
    assert s[..|s| - |r|] == [s[0]] + s[1..][..|s| - 1 - |r|];
  }

  /** A white-space byte after a prefix followed only by white space. */
  lemma SpaceAfter(s: string, r: string)
    requires |s| > 0 && IsSpace(s[|s| - 1])
    requires |r| <= |s| - 1 && r == s[..|s| - 1][..|r|] && AllSpace(s[..|s| - 1][|r|..])
    ensures r == s[..|r|] && AllSpace(s[|r|..])
  {
    assert s[|r|..] == s[..|s| - 1][|r|..] + [s[|s| - 1]];
  }

  /** Leading white space removed. */
  function TrimLeft(s: string): string {
    if |s| > 0 && IsSpace(s[0]) then TrimLeft(s[1..]) else s
  }

  /** Trailing white space removed. */
  function TrimRight(s: string): string {
    if |s| > 0 && IsSpace(s[|s| - 1]) then TrimRight(s[..|s| - 1]) else s
  }

  /** `TrimLeft` keeps a suffix, drops only white space, and stops at a byte that is not. */
  lemma {:induction false} TrimLeftShape(s: string)
    ensures var r := TrimLeft(s);
      && |r| <= |s| && r == s[|s| - |r|..]
      && AllSpace(s[..|s| - |r|])
      && (r == [] || !IsSpace(r[0]))
  {
    if |s| > 0 && IsSpace(s[0]) {
      TrimLeftShape(s[1..]);
      SpaceBefore(s, TrimLeft(s[1..]));
    }
  }

  /** `TrimRight` keeps a prefix, drops only white space, and stops at a byte that is not. */
  lemma {:induction false} TrimRightShape(s: string)
    ensures var r := TrimRight(s);
      && |r| <= |s| && r == s[..|r|]
      && AllSpace(s[|r|..])
      && (r == [] || !IsSpace(r[|r| - 1]))
  {
    if |s| > 0 && IsSpace(s[|s| - 1]) {
      TrimRightShape(s[..|s| - 1]);
      SpaceAfter(s, TrimRight(s[..|s| - 1]));
    }
  }

  /** Leading and trailing white space removed. */
  function TrimSpace(s: string): (r: string)
    ensures |r| <= |s|
    ensures Trimmed(r)
  {
    TrimLeftShape(s);
    TrimRightShape(TrimLeft(s));
    TrimRight(TrimLeft(s))
  }

  lemma {:induction false} TrimLeftSkips(a: string, r: string)
    requires AllSpace(a)
    requires r == [] || !IsSpace(r[0])
    ensures TrimLeft(a + r) == r
  {
    if a != [] {
      assert (a + r)[1..] == a[1..] + r;
      TrimLeftSkips(a[1..], r);
    } else {
      assert a + r == r;
    }
  }

  lemma {:induction false} TrimRightSkips(r: string, b: string)
    requires AllSpace(b)
    requires r == [] || !IsSpace(r[|r| - 1])
    ensures TrimRight(r + b) == r
  {
    if b != [] {
      assert (r + b)[..|r + b| - 1] == r + b[..|b| - 1];
      TrimRightSkips(r, b[..|b| - 1]);
    } else {
      assert r + b == r;
    }
  }

  /**
   * Trimming is characterised by its result: whatever white space surrounds a
   * string whose ends are not white space is exactly what is removed.
   */
  lemma TrimSpaceOf(a: string, r: string, b: string)
    requires AllSpace(a) && AllSpace(b) && Trimmed(r)
    ensures TrimSpace(a + r + b) == r
  {
    if r == [] {
      assert a + r + b == a + b;
      assert AllSpace(a + b);
      TrimLeftSkips(a + b, []);
      assert a + b + [] == a + b;
    } else {
      assert a + r + b == a + (r + b);
      TrimLeftSkips(a, r + b);
      TrimRightSkips(r, b);
    }
  }

  /** Every string is its trimmed form surrounded by white space. */
  lemma TrimSpaceSplits(s: string) returns (i: nat, j: nat)
    ensures i <= j <= |s| && s[i..j] == TrimSpace(s)
    ensures AllSpace(s[..i]) && AllSpace(s[j..])
  {
    var l := TrimLeft(s);
    TrimLeftShape(s);
    i := |s| - |l|;
    var r := TrimRight(l);
    TrimRightShape(l);
    j := i + |r|;
    assert s[i..j] == r;
    assert s[j..] == l[|r|..];
  }

  /** Trimming a string with no white space at either end changes nothing. */
  lemma TrimmedIsFixed(s: string)
    requires Trimmed(s)
    ensures TrimSpace(s) == s
  {
    assert [] + s + [] == s;
    TrimSpaceOf([], s, []);
  }

  lemma AllSpaceConcat(x: string, y: string)
    requires AllSpace(x) && AllSpace(y)
    ensures AllSpace(x + y)
  {
    forall k | 0 <= k < |x + y| ensures IsSpace((x + y)[k]) {
      if k >= |x| { assert (x + y)[k] == y[k - |x|]; }
    }
  }

  lemma Regroup(pre: string, x: string, r: string, y: string, post: string)
    ensures pre + (x + r + y) + post == (pre + x) + r + (y + post)
  {
  }

  /** Surrounding white space added to a string does not change its trimmed form. */
  lemma TrimSpaceAbsorbs(pre: string, s: string, post: string)
    requires AllSpace(pre) && AllSpace(post)
    ensures TrimSpace(pre + s + post) == TrimSpace(s)
  {
    var i, j := TrimSpaceSplits(s);
    var x, r, y := s[..i], s[i..j], s[j..];
    assert s == x + r + y;
    AllSpaceConcat(pre, x);
    AllSpaceConcat(y, post);
    Regroup(pre, x, r, y, post);
    TrimSpaceOf(pre + x, r, y + post);
  }

  lemma TrimSpaceIdempotent(s: string)
    ensures TrimSpace(TrimSpace(s)) == TrimSpace(s)
  {
    TrimmedIsFixed(TrimSpace(s));
  }

  /** Trimming only removes bytes: a byte absent from `s` is absent from its trimmed form. */
  lemma TrimSpaceKeepsAbsent(s: string, c: char)
    requires c !in s
    ensures c !in TrimSpace(s)
  {
    var i, j := TrimSpaceSplits(s);
    forall k | 0 <= k < j - i ensures TrimSpace(s)[k] != c {
      assert TrimSpace(s)[k] == s[i + k];
    }
  }

  /** Trimming removes only white space, so a byte that is not white space stays exactly when it was there. */
  lemma TrimSpaceKeepsNonSpace(s: string, c: char)
    requires !IsSpace(c)
    ensures c in s <==> c in TrimSpace(s)
  {
    var i, j := TrimSpaceSplits(s);
    if c in s {
      var k :| 0 <= k < |s| && s[k] == c;
      assert TrimSpace(s)[k - i] == c;
    }
    if c !in s {
      TrimSpaceKeepsAbsent(s, c);
    }
  }

  /** ASCII lower-casing of one byte. */
  function LowerChar(c: char): char {
    if 'A' <= c <= 'Z' then (c as int + 32) as char else c
  }

  predicate IsLower(s: string) {
    forall i | 0 <= i < |s| :: !('A' <= s[i] <= 'Z')
  }

  function ToLower(s: string): (r: string)
    ensures |r| == |s|
    ensures IsLower(r)
    ensures forall i | 0 <= i < |s| :: r[i] == LowerChar(s[i])
  {
    seq(|s|, i requires 0 <= i < |s| => LowerChar(s[i]))
  }

  lemma ToLowerKeepsLower(s: string)
    requires IsLower(s)
    ensures ToLower(s) == s
  {
  }

  /** Lower-casing neither adds nor removes white space at the ends. */
  lemma ToLowerKeepsTrimmed(s: string)
    requires Trimmed(s)
    ensures Trimmed(ToLower(s))
  {
  }

  /** Position of the first `c` in `s`, if any. */
  function IndexOf(s: string, c: char): (r: Option<nat>)
    ensures r.None? <==> c !in s
    ensures r.Some? ==> r.value < |s| && s[r.value] == c && c !in s[..r.value]
  {
    if s == [] then None
    else if s[0] == c then Some(0)
    else match IndexOf(s[1..], c)
      case None => None
      case Some(i) => assert s[..i + 1] == [s[0]] + s[1..][..i]; Some(i + 1)
  }

  predicate IsDigit(c: char) {
    '0' <= c <= '9'
  }

  predicate AllDigits(s: string) {
    forall i | 0 <= i < |s| :: IsDigit(s[i])
  }

  /** The value of a string of decimal digits, most significant first. */
  function DigitsValue(s: string): nat
    requires AllDigits(s)
  {
    if s == [] then 0 else DigitsValue(s[..|s| - 1]) * 10 + (s[|s| - 1] as int - '0' as int)
  }

  function Digit(d: nat): (c: char)
    requires d < 10
    ensures IsDigit(c) && c as int - '0' as int == d
  {
    ('0' as int + d) as char
  }

  /** A digit string has no white space at either end. */
  lemma DigitsTrimmed(s: string)
    requires AllDigits(s)
    ensures Trimmed(s)
  {
    if s != [] {
      assert IsDigit(s[0]) && IsDigit(s[|s| - 1]);
    }
  }

  const MinInt64: int := -0x8000_0000_0000_0000
  const MaxInt64: int := 0x7FFF_FFFF_FFFF_FFFF

  /**
   * Decimal parsing of a 64-bit signed integer: an optional `+` or `-`, then
   * one or more decimal digits, and a value that fits in 64 bits.
   */
  function Atoi(s: string): (r: Option<int>)
    ensures r.Some? ==> MinInt64 <= r.value <= MaxInt64
    ensures r.Some? ==> s != [] && AllDigits(if s[0] == '+' || s[0] == '-' then s[1..] else s)
    ensures r.Some? && r.value < 0 ==> s[0] == '-'
  {
    var signed := |s| > 0 && (s[0] == '+' || s[0] == '-');
    var digits := if signed then s[1..] else s;
    if digits == [] || !AllDigits(digits) then None
    else
      var magnitude: int := DigitsValue(digits);
      var v: int := if signed && s[0] == '-' then -magnitude else magnitude;
      if MinInt64 <= v <= MaxInt64 then Some(v) else None
  }

  /** Decimal rendering of a natural number, without leading zeros. */
  function Itoa(n: nat): (r: string)
    ensures r != [] && AllDigits(r)
  {
    if n < 10 then [Digit(n)] else Itoa(n / 10) + [Digit(n % 10)]
  }

  /** No leading zero, except for zero itself. */
  lemma {:induction false} ItoaNoLeadingZero(n: nat)
    ensures Itoa(n)[0] == '0' <==> n == 0
  {
    if n >= 10 {
      ItoaNoLeadingZero(n / 10);
      assert Itoa(n)[0] == Itoa(n / 10)[0];
    }
  }

  lemma {:induction false} ItoaValue(n: nat)
    ensures DigitsValue(Itoa(n)) == n
  {
    if n >= 10 {
      var r := Itoa(n);
      assert r[..|r| - 1] == Itoa(n / 10);
      ItoaValue(n / 10);
    }
  }

  /** Parsing what `Itoa` renders gives back the number. */
  lemma AtoiItoa(n: nat)
    requires n <= MaxInt64
    ensures Atoi(Itoa(n)) == Some(n)
  {
    ItoaValue(n);
  }

  /** `%03d` of a three-digit status code: exactly three digits, zero-padded. */
  function Pad3(n: nat): (r: string)
    requires n < 1000
  {
    [Digit(n / 100), Digit(n / 10 % 10), Digit(n % 10)]
  }

  lemma Pad3Parses(n: nat)
    requires n < 1000
    ensures |Pad3(n)| == 3 && AllDigits(Pad3(n))
    ensures Atoi(Pad3(n)) == Some(n)
  {
    var r := Pad3(n);
    assert r[..2][..1] == r[..1];
    assert DigitsValue(r[..1]) == n / 100;
    assert DigitsValue(r[..2]) == n / 100 * 10 + n / 10 % 10;
    assert DigitsValue(r) == n;
  }
}

=== FILE: wrappers.dfy ===
/** Option and Result, the failure-carrying values used throughout the model. */
module Wrappers {

  datatype Option<+T> = None | Some(value: T)

  datatype Result<+T, +E> = Ok(value: T) | Err(error: E)
}
